=== FILE: README.md ===
# WechatBot conversation core, modelled in Dafny

This project models the sequential logic of a WeChat group chat-bot that answers through a
hosted language model and keeps conversation data in a hosted database. It covers four parts:

- **The context cache of `ai.js`** (module `AiContext`). This is a map from conversation id to
  an ordered message list. One `getAIResponse` call creates the list with a system message the
  first time an id is seen. It then appends the user message, trims the list when it is longer
  than `maxHistoryLength`, asks the completion service, and appends the reply.
  `clearConversation` and `clearAllConversations` evict one entry or all of them. The
  completion service is a function parameter `complete` that answers a request or fails.
- **The memory store of `memory.js`** (modules `MemoryStore` and `MemoryPrompt`). The
  `memories` table is a sequence of rows `(conversation_id, memory_text, created_at)` in
  insertion order. Each query (`eq`, `order desc`, `limit`, `delete`, `ilike`) is a function
  on that sequence. `formatMemoriesForPrompt` is the pure formatter, and `ParseMemoryBlock`
  reads its output back.
- **The history store of `database.js`** (module `HistoryStore`). It treats the
  `conversation_history` table the same way. `loadConversationHistory` takes the newest `limit`
  rows and reverses them, so it returns the last rows of the conversation oldest first.
- **The `'message'` handler of `bot.js`** (module `MessageHandler`). Its chain of filters and its
  reply selection are one pure function `Decide` over an abstract incoming message. Regular
  expression matching is the parameter `test`.

Every database operation takes a `fails` flag. It stands for an error the database reports or an
exception thrown on the way to it. Writes swallow such a failure and leave the table as it was.
Reads return `[]` or a zero count instead.

Helper modules: `Wrappers` (`Option`, `Result`), `Seqs` (filter, reverse, take, ordering lemmas),
and `Text` (substring search, ASCII case folding, decimal rendering, `join`, `split`).

Facts about the code that shape the model:

- `getAIResponse` keeps conversations only in memory. It neither reads nor writes the database,
  adds no memory digest to the system message and offers no tools.
- `getAIResponse` appends the user message exactly as given. Any `"<speaker>: "` prefix is the
  caller's doing.
- For a `maxHistoryLength` of at least 2, the list sent to the completion service after
  trimming holds at most `maxHistoryLength` messages. The stored list then gains the assistant
  reply, so it settles at `maxHistoryLength + 1` messages (`AiContext.StoredLength`,
  `AiContext.RunTurnsLength`). With the value 1 the slice keeps the whole list and element 0 is
  duplicated (`AiContext.TrimWithOneDuplicatesFirst`), so every answered turn makes the list three
  messages longer (`AiContext.LimitOneGrowsByThree`). A negative value cuts messages from the
  front instead (`AiContext.TrimNegativeKeepsOnlyFirst`).

## Model

| member | source | states |
|---|---|---|
| AiContext.MaxHistoryLength | ai.js:41 | the limit is `options.maxHistoryLength` unless that is absent or 0, in which case it is 20; it is never 0 |
| AiContext.SliceFrom | ai.js:45 | `slice(start)` returns a suffix: its last `-start` elements for a negative start, and everything from `start` on otherwise, clamped to the list |
| AiContext.Trim | ai.js:41-47 | a list no longer than the limit is unchanged; element 0 is always kept; for a limit of at least 2 a longer list becomes element 0 followed by its last `limit - 1` elements in order, exactly `limit` long; for a limit of at least 1 the last element is kept |
| AiContext.TrimWithOneDuplicatesFirst | ai.js:41-46 | with limit 1 the slice start is 0, so the trimmed list is element 0 followed by the whole list: one longer, not shorter |
| AiContext.TrimNegativeKeepsOnlyFirst | ai.js:41-46 | with a negative limit the slice drops from the front, so a short list is cut down to element 0 alone |
| AiContext.PrepareMessages | ai.js:22-47 | a new id starts from one system message holding `systemPrompt`, or the default prompt when that is falsy; element 0 of an existing list is kept; a list no longer than the limit after the user message is appended is sent as it is; for a limit of at least 1 the user message, appended verbatim, is the last message sent; for a limit of at least 2 a longer list becomes element 0 plus the latest `limit - 1` messages, so at most `limit` messages are sent |
| AiContext.GetAIResponse | ai.js:20-69 | the completion service is given the prepared list; only the call's own key changes, and that key is `'default'` when the id is omitted; on success the completion's content is returned and appended as the final assistant message; on failure the error is rethrown and the already-appended user message stays |
| AiContext.ClearConversation | ai.js:76-79 | the given key is removed and every other entry is unchanged |
| AiContext.ClearAllConversations | ai.js:84-87 | no key is left |
| AiContext.OperationsPreserveValid | ai.js:23-87 | every list in the cache stays non-empty and starts with a system message through a turn and through either clear |
| AiContext.StoredLength | ai.js:41-63 | for a limit of at least 2 the stored list holds at most `limit + 1` messages; after an answered turn a list that held `n` messages holds `min(n + 2, limit + 1)`, whatever `n` was, so it grows by two until it reaches `limit + 1` and a longer list is cut back to `limit + 1` |
| AiContext.LimitOneGrowsByThree | ai.js:41-63 | with `maxHistoryLength` 1 the trim lengthens instead of shortening, so every answered turn leaves a non-empty list three messages longer and it never settles |
| AiContext.ClearThenRespondStartsFresh | ai.js:23-38 | for a `maxHistoryLength` of at least 2, after a conversation is cleared, its next turn sends exactly a fresh system message and the user message |
| AiContext.RunTurnsInvariant | ai.js:20-65 | for a `maxHistoryLength` of at least 2, over any number of turns the cache stays valid and bounded, the conversation's system message never changes, and other conversations are untouched |
| AiContext.RunTurnsLength | ai.js:41-63 | for a `maxHistoryLength` of at least 2, when every completion succeeds, a list of length `n` is `min(n + 2t, limit + 1)` long after `t` turns |
| MemoryStore.AddMemory | memory.js:32-53 | a successful insert appends exactly one row with the given id and text and keeps every earlier row; a failed one changes nothing and nothing is thrown |
| MemoryStore.NewestRows | memory.js:63-71 | the selected rows all belong to the conversation; there are `min(limit, count)` of them, or all of them when `limit` is falsy; the i-th is the conversation's i-th most recently inserted row |
| MemoryStore.NewestRowsAreNewest | memory.js:67-71 | in a table with increasing `created_at` the selected rows are strictly newest first, and each row of the conversation that is left out is older than every row returned |
| MemoryStore.GetMemories | memory.js:61-85 | `[]` on error; otherwise `min(limit, count)` texts (all of them when `limit` is falsy), the i-th being the text of the conversation's i-th most recently inserted row |
| MemoryStore.DeleteMemory | memory.js:106-123 | the rows kept are exactly those that do not have both the conversation id and that exact text |
| MemoryStore.ClearMemories | memory.js:129-145 | the rows kept are exactly those of other conversations |
| MemoryStore.SearchMemories | memory.js:153-171 | `[]` on error; otherwise every result is the text of one of the conversation's rows that contains the keyword ignoring case, and every such row's text is in the result |
| MemoryStore.SearchIsFilteredMemories | memory.js:153-166 | the result holds one text per matching row: the conversation's memories oldest first (the reverse of an unlimited `getMemories`) that contain the keyword, duplicates included |
| MemoryStore.GetMemoryStats | memory.js:178-195 | the count is the number of the conversation's rows, or 0 on error |
| MemoryStore.AddThenGetNewestFirst | memory.js:32-84 | after adding a memory with a later timestamp, `getMemories` returns it first for any limit, the count grows by one, and the table stays chronological |
| MemoryStore.AddMemoryIsolated | memory.js:34-41 | adding to one conversation leaves every other conversation's rows unchanged |
| MemoryStore.DeleteMemoryKeepsOrder | memory.js:106-112 | the conversation's remaining rows are its earlier rows without those holding that text, in the same order and with the same multiplicity |
| MemoryStore.DeleteThenGet | memory.js:61-112 | after a delete, an unlimited `getMemories` returns the earlier list with every copy of the text removed and the rest in the same order |
| MemoryStore.DeletesPreserveChronological | memory.js:106-134 | `deleteMemory` and `clearMemories` only drop rows, so a table with increasing `created_at` keeps that property |
| MemoryStore.DeleteMemoryEffect | memory.js:106-112 | after a delete the text no longer appears in that conversation's memories, and other conversations' rows are unchanged |
| MemoryStore.ClearMemoriesEffect | memory.js:129-134 | after clearing, the conversation has no memories and a zero count, and other conversations' rows are unchanged |
| MemoryStore.StatsCountsMemories | memory.js:178-190 | the count equals the number of memories an unlimited `getMemories` returns |
| MemoryStore.SearchEmptyKeywordListsAll | memory.js:153-159 | an empty keyword (`%%`) matches every memory of the conversation |
| MemoryPrompt.FormatMemoriesForPrompt | memory.js:92-99 | the result is empty exactly when the input is null or empty; otherwise it starts with the fixed header and ends with a newline |
| MemoryPrompt.FormatContainsEveryMemory | memory.js:97-98 | every memory text occurs as a substring of the formatted block |
| MemoryPrompt.ParseNumberedLines | memory.js:97 | reading the numbered lines back, expecting numbers from `first` on, yields exactly the memories they were made from |
| MemoryPrompt.FormatRoundTrip | memory.js:92-98 | when no memory contains a line break, reading the block back yields the original memories in order, so the numbering runs 1, 2, ... and nothing is lost |
| MemoryPrompt.FormatAmbiguousWithLineBreaks | memory.js:97-98 | a memory containing a line break can format exactly like two memories, so the line-break condition above is needed |
| Text.DecimalValue | memory.js:97 | the decimal rendering used for list numbers reads back as the number it renders |
| Text.ContainsIff | memory.js:159 | the substring search used for `%keyword%` succeeds exactly when the keyword occurs at some position |
| HistoryStore.SaveMessage | database.js:39-61 | a successful insert appends exactly one row `(conversationId, role, content)` and keeps every earlier row; a failed one changes nothing and nothing is thrown |
| HistoryStore.LoadConversationHistory | database.js:69-92 | `[]` on error; otherwise `min(limit, count)` messages (limit 20 when omitted), which are the conversation's latest messages, oldest first, as role and content only |
| HistoryStore.LoadedRows | database.js:71-84 | the rows read are the last `min(limit, count)` rows of the conversation, in insertion order |
| HistoryStore.LoadIsLatest | database.js:73-87 | in a well-formed table the loaded messages come from rows in increasing `created_at` order, and every row of the conversation that is not loaded is older than every row that is |
| HistoryStore.ClearConversationHistory | database.js:98-114 | the rows kept are exactly those of other conversations |
| HistoryStore.ClearAllConversationHistory | database.js:119-135 | the filter `id != 0` keeps only rows with id 0, so a table with BIGSERIAL ids is emptied |
| HistoryStore.CleanupOldHistory | database.js:141-160 | the rows kept are exactly those created at or after the cut-off |
| HistoryStore.GetConversationStats | database.js:167-183 | `messageCount` is the number of the conversation's rows, or 0 on error |
| HistoryStore.SaveThenLoad | database.js:39-87 | a saved message is the last one the next load returns for any limit of at least 1, and the count grows by one |
| HistoryStore.OperationsPreserveWellFormed | database.js:21-27 | positive, increasing ids and increasing timestamps survive a save with a fresh stamp and every delete |
| HistoryStore.ClearConversationIsolated | database.js:98-103 | after a clear the conversation's log is empty and every other conversation's log is unchanged |
| HistoryStore.CleanupKeepsSuffix | database.js:141-149 | in a chronological table the expired rows form a prefix, so cleanup keeps a suffix of the table |
| HistoryStore.LoadWithLargeLimitIsLog | database.js:69-87 | a limit at least the conversation's count loads its whole log in insertion order |
| MessageHandler.IsTargetRoom | bot.js:49-56 | a room is targeted exactly when some entry is a string equal to the topic or a pattern that matches it; entries of any other kind never match |
| MessageHandler.FirstMatch | bot.js:77-83 | the chosen rule matches the text and no earlier rule does; there is no choice exactly when no rule matches |
| MessageHandler.ReplyText | bot.js:76-91 | the reply is the first matching rule's reply when that is non-empty, otherwise the default reply when that is truthy, otherwise nothing |
| MessageHandler.Decide | bot.js:30-103 | no room, a non-targeted room, the bot's own message (unless `replyToSelf`) or a missing mention (when `replyOnlyWhenMentioned`) give no reply; otherwise the reply text is sent whenever there is one; a sent reply @-mentions the sender exactly when the message mentioned the bot |
| MessageHandler.LaterRulesNotConsulted | bot.js:78-83 | once a rule matches, rules after it never affect the choice |
| MessageHandler.NonMatchingRulesSkipped | bot.js:78-83 | rules that do not match can be put in front without changing which rule is chosen |
| MessageHandler.MentionOnlyRepliesMention | bot.js:69-97 | when replies require a mention, every reply @-mentions the sender |
| MessageHandler.NoRuleNoDefaultIsSilent | bot.js:86-91 | with no matching rule and no truthy default reply, nothing is sent |

## Left out

- The Supabase client and its network round-trips (memory.js:1-5, database.js:1-5). Tables are row sequences, and any failure is the `fails` flag.
- The OpenAI client (ai.js:1-8, 50-54). It is the `complete` parameter. `temperature` is a pass-through number with no behaviour and is not modelled.
- AiContext.GetAIResponse: a `null` message content from the completion service is not modelled; content is always a string.
- AiContext.MaxHistoryLength: only integer values are modelled; a fractional or `NaN` `maxHistoryLength` is not.
- Console logging, including the `substring(0, 50)` used only in log lines.
- Row ids and timestamps are parameters (`rowId`, `now`), not generated. So BIGSERIAL generation and `DEFAULT NOW()` are assumptions. The history store states them as `HistoryStore.WellFormed` (ids at least 1 and increasing, `created_at` increasing) and `HistoryStore.FreshStamp` (a new row's id and time come after every existing row). The memory store states them as `MemoryStore.Chronological` (`created_at` increasing).
- MemoryStore.NewestRows: `order by created_at desc` is modelled as the reverse of insertion order. This is the database's order only when `created_at` strictly increases with insertion; ties are not modelled.
- MemoryStore.SearchMemories: the `ilike` wildcards `%` and `_` inside the keyword, and escapes, are not modelled. Case folding covers ASCII letters only. The query has no `order`, so the database fixes no order, and the model returns insertion order.
- Every write (`addMemory`, `deleteMemory`, `clearMemories`, `saveMessage`, `clearConversationHistory`, `clearAllConversationHistory`, `cleanupOldHistory`) treats a reported failure as no write. A database that commits and then reports an error, for example because the response was lost, is not modelled.
- MemoryStore.GetMemories: `limit` is a natural number, with 0 meaning no limit; a negative limit is not modelled.
- A `null` conversation id passed to `getAIResponse` (which becomes the Map key `null`, not `'default'`) and a `null` load limit passed to `loadConversationHistory` (which reaches `.limit(null)` instead of the default 20) are not modelled; `None` stands for an omitted argument there.
- HistoryStore.LoadConversationHistory: a negative `limit` is not modelled. `order by created_at desc` is the reverse of insertion order, which `HistoryStore.LoadIsLatest` shows is the database's order when `created_at` strictly increases; ties are not modelled.
- HistoryStore.CleanupOldHistory: the date arithmetic and ISO formatting of the cut-off (database.js:143-144) are not modelled. The cut-off is an integer timestamp.
- The Wechaty lifecycle (bot.js:6-27, 105-124), the `room.say` send itself, and reading the topic, sender and mention flag from the client. Only the decision of what is sent is modelled.
- The regular expression engine. `test` is a parameter, so stateful `/g` patterns are not modelled.
- `config.js` and `config.advanced.js` are static data that the `Config` datatype holds. Function-valued replies (config.advanced.js:21) and the unused `aiConfig`, `antiSpam` and `welcomeNewMember` sections are not modelled.
- Concurrent handler invocations. Each call is atomic.

=== FILE: ai_context.dfy ===
/**
 * The per-conversation context cache of `ai.js`: a map from conversation id to an ordered
 * message list whose element 0 is the system message, and the `getAIResponse` turn that
 * creates an entry on first use, appends the user message, trims, asks the completion
 * service and appends its reply.
 */
module AiContext {
  import opened Wrappers
  import opened Seqs

  datatype Role = System | User | Assistant

  datatype Message = Message(role: Role, content: string)

  /** Conversation id to its message list, oldest first. */
  type Cache = map<string, seq<Message>>

  const DefaultConversationId: string := "default"
  const DefaultSystemPrompt: string := "你是一个有帮助的 AI 助手，你会为用户提供安全，有帮助，准确的回答。"
  const DefaultModel: string := "kimi-k2-turbo-preview"
  const DefaultMaxHistoryLength: int := 20

  /**
   * The recognised fields of `options`; `None` is an absent field. The sampling temperature
   * is passed through to the completion service untouched and is not modelled.
   */
  datatype Options = Options(systemPrompt: Option<string>, model: Option<string>, maxHistoryLength: Option<int>)

  /** What is handed to the completion service. */
  datatype Request = Request(model: string, messages: seq<Message>)

  /** What the completion service does with a request: answer with content, or throw. */
  datatype Completion = Completed(content: string) | Failed(error: string)

  /**
   * The outcome of one `getAIResponse` call: the cache afterwards, the message list the
   * completion service was given, and the returned content or the rethrown error.
   */
  datatype Exchange = Exchange(cache: Cache, sent: seq<Message>, reply: Result<string, string>)

  /**
   * The conversation id, after the parameter default `'default'`; `None` is an omitted
   * (`undefined`) id.
   */
  function ConversationKey(conversationId: Option<string>): string
  {
    if conversationId.Some? then conversationId.value else DefaultConversationId
  }

  function SystemPrompt(options: Options): string
  {
    OrElse(options.systemPrompt, DefaultSystemPrompt)
  }

  function ModelName(options: Options): string
  {
    OrElse(options.model, DefaultModel)
  }

  /** `options.maxHistoryLength || 20`: an absent field and 0 both give 20. */
  function MaxHistoryLength(options: Options): (m: int)
    ensures m != 0
    ensures options.maxHistoryLength.Some? && options.maxHistoryLength.value != 0 ==> m == options.maxHistoryLength.value
    ensures options.maxHistoryLength.None? || options.maxHistoryLength.value == 0 ==> m == DefaultMaxHistoryLength
  {
    if options.maxHistoryLength.Some? && options.maxHistoryLength.value != 0
    then options.maxHistoryLength.value
    else DefaultMaxHistoryLength
  }

  /**
   * `Array.prototype.slice(start)`: a negative start counts back from the end, and a start
   * beyond either end is clamped to it. The result is always a suffix of `s`.
   */
  function SliceFrom<T>(s: seq<T>, start: int): (r: seq<T>)
    ensures |r| <= |s| && r == s[|s| - |r|..]
    ensures start < 0 ==> |r| == Min(-start, |s|)
    ensures start >= 0 ==> |r| == |s| - Min(start, |s|)
  {
    if start < 0 then (if |s| + start < 0 then s else s[|s| + start..])
    else if start > |s| then []
    else s[start..]
  }

  /**
   * The trimming step: when the list is longer than `maxLen`, keep element 0 and
   * `messages.slice(-maxLen + 1)`.
   */
  function Trim(messages: seq<Message>, maxLen: int): (r: seq<Message>)
    requires |messages| >= 1
    ensures |r| >= 1 && r[0] == messages[0]
    ensures |messages| <= maxLen ==> r == messages
    ensures maxLen >= 2 ==> |r| == Min(|messages|, maxLen)
    ensures maxLen >= 2 && |messages| > maxLen ==> r[1..] == messages[|messages| - (maxLen - 1)..]
    ensures maxLen >= 1 ==> r[|r| - 1] == messages[|messages| - 1]
  {
    if |messages| > maxLen then [messages[0]] + SliceFrom(messages, -maxLen + 1) else messages
  }

  /**
   * With `maxHistoryLength` 1 the slice start is 0, so trimming keeps the whole list and
   * puts a second copy of element 0 in front: the list grows by one on every trim.
   */
  lemma TrimWithOneDuplicatesFirst(messages: seq<Message>)
    requires |messages| > 1
    ensures Trim(messages, 1) == [messages[0]] + messages
    ensures |Trim(messages, 1)| == |messages| + 1
  {
  }

  /**
   * With a negative `maxHistoryLength` the slice start is positive, so trimming drops
   * messages from the front: a short enough list keeps only element 0.
   */
  lemma TrimNegativeKeepsOnlyFirst(messages: seq<Message>, maxLen: int)
    requires maxLen < 0 && 1 <= |messages| <= 1 - maxLen
    ensures Trim(messages, maxLen) == [messages[0]]
  {
  }

  /** The list a turn starts from: the cached one, or a fresh list holding only the system message. */
  function Prior(cache: Cache, key: string, options: Options): seq<Message>
  {
    if key in cache then cache[key] else [Message(System, SystemPrompt(options))]
  }

  /**
   * The first half of a turn: the list the completion service is given, made from the
   * cached list (or a fresh one), the user message, and the trim.
   */
  function PrepareMessages(cache: Cache, userMessage: string, key: string, options: Options): (sent: seq<Message>)
    ensures |sent| >= 1
    // lazy creation, and element 0 is never replaced
    ensures key !in cache ==> sent[0] == Message(System, SystemPrompt(options))
    ensures key in cache && |cache[key]| >= 1 ==> sent[0] == cache[key][0]
    // the user message is appended verbatim, then the list is trimmed
    ensures var before := Prior(cache, key, options) + [Message(User, userMessage)];
      |before| <= MaxHistoryLength(options) ==> sent == before
    ensures var before := Prior(cache, key, options) + [Message(User, userMessage)];
      var m := MaxHistoryLength(options);
      m >= 2 && |before| > m ==> |sent| == m && sent[1..] == before[|before| - (m - 1)..]
    ensures MaxHistoryLength(options) >= 1 ==> sent[|sent| - 1] == Message(User, userMessage)
    ensures MaxHistoryLength(options) >= 2 ==> |sent| <= MaxHistoryLength(options)
  {
    Trim(Prior(cache, key, options) + [Message(User, userMessage)], MaxHistoryLength(options))
  }

  /** One call of `getAIResponse(userMessage, conversationId, options)`. */
  function GetAIResponse(cache: Cache, userMessage: string, conversationId: Option<string>, options: Options,
                         complete: Request -> Completion): (r: Exchange)
    // the completion service is given the prepared list
    ensures r.sent == PrepareMessages(cache, userMessage, ConversationKey(conversationId), options)
    // the call touches only its own key, which is 'default' when the id is omitted
    ensures ConversationKey(conversationId) in r.cache
    ensures conversationId.None? ==> DefaultConversationId in r.cache
    ensures forall k :: k != ConversationKey(conversationId) ==>
      (k in r.cache <==> k in cache) && (k in cache ==> r.cache[k] == cache[k])
    // the reply is the completion's content, appended as the last message
    ensures complete(Request(ModelName(options), r.sent)).Completed? ==>
      var content := complete(Request(ModelName(options), r.sent)).content;
      r.reply == Success(content) && r.cache[ConversationKey(conversationId)] == r.sent + [Message(Assistant, content)]
    // a failure is rethrown, and the appended user message stays
    ensures complete(Request(ModelName(options), r.sent)).Failed? ==>
      r.reply == Failure(complete(Request(ModelName(options), r.sent)).error)
      && r.cache[ConversationKey(conversationId)] == r.sent
  {
    var key := ConversationKey(conversationId);
    var sent := PrepareMessages(cache, userMessage, key, options);
    match complete(Request(ModelName(options), sent))
    case Completed(content) =>
      Exchange(cache[key := sent + [Message(Assistant, content)]], sent, Success(content))
    case Failed(error) =>
      Exchange(cache[key := sent], sent, Failure(error))
  }

  /** `clearConversation(conversationId)`. */
  function ClearConversation(cache: Cache, conversationId: string): (r: Cache)
    ensures conversationId !in r
    ensures forall k :: k != conversationId ==> (k in r <==> k in cache) && (k in r ==> r[k] == cache[k])
  {
    cache - {conversationId}
  }

  /** `clearAllConversations()`. */
  function ClearAllConversations(cache: Cache): (r: Cache)
    ensures forall k :: k !in r
  {
    map[]
  }

  /** Every cached list is non-empty and starts with the system message. */
  ghost predicate Valid(cache: Cache)
  {
    forall k :: k in cache ==> |cache[k]| >= 1 && cache[k][0].role == System
  }

  /** Every cached list holds at most `maxLen + 1` messages. */
  ghost predicate Bounded(cache: Cache, maxLen: int)
  {
    forall k :: k in cache ==> |cache[k]| <= maxLen + 1
  }

  /** Every operation on the cache keeps it valid. */
  lemma OperationsPreserveValid(cache: Cache, userMessage: string, conversationId: Option<string>, options: Options,
                                complete: Request -> Completion, other: string)
    requires Valid(cache)
    ensures Valid(GetAIResponse(cache, userMessage, conversationId, options, complete).cache)
    ensures Valid(ClearConversation(cache, other))
    ensures Valid(ClearAllConversations(cache))
  {
  }

  /**
   * For `maxHistoryLength` of at least 2, the stored list holds at most one message more
   * than the limit, because the reply is appended after the trim; once the list has reached
   * the limit, every answered turn leaves exactly `maxHistoryLength + 1` messages.
   */
  lemma StoredLength(cache: Cache, userMessage: string, conversationId: Option<string>, options: Options,
                     complete: Request -> Completion)
    requires MaxHistoryLength(options) >= 2
    ensures var r := GetAIResponse(cache, userMessage, conversationId, options, complete);
      |r.cache[ConversationKey(conversationId)]| <= MaxHistoryLength(options) + 1
    ensures var r := GetAIResponse(cache, userMessage, conversationId, options, complete);
      var before := Prior(cache, ConversationKey(conversationId), options);
      r.reply.Success? ==>
      |r.cache[ConversationKey(conversationId)]| == Min(|before| + 2, MaxHistoryLength(options) + 1)
  {
  }

  /**
   * With `maxHistoryLength` 1 the list never settles: the trim duplicates element 0 instead
   * of shortening, so every answered turn leaves a non-empty list three messages longer.
   */
  lemma LimitOneGrowsByThree(cache: Cache, userMessage: string, conversationId: Option<string>, options: Options,
                             complete: Request -> Completion)
    requires MaxHistoryLength(options) == 1
    ensures var r := GetAIResponse(cache, userMessage, conversationId, options, complete);
      var before := Prior(cache, ConversationKey(conversationId), options);
      r.reply.Success? && |before| >= 1 ==> |r.cache[ConversationKey(conversationId)]| == |before| + 3
  {
  }

  /** After the entry is cleared, the next turn starts from a fresh system message. */
  lemma ClearThenRespondStartsFresh(cache: Cache, userMessage: string, conversationId: string, options: Options,
                                    complete: Request -> Completion)
    requires MaxHistoryLength(options) >= 2
    ensures GetAIResponse(ClearConversation(cache, conversationId), userMessage, Some(conversationId), options, complete).sent
         == [Message(System, SystemPrompt(options)), Message(User, userMessage)]
  {
  }

  /** A sequence of turns for one conversation, each with the same options and service. */
  function RunTurns(cache: Cache, conversationId: string, utterances: seq<string>, options: Options,
                    complete: Request -> Completion): (r: Cache)
    ensures conversationId in cache || |utterances| > 0 ==> conversationId in r
    decreases |utterances|
  {
    if utterances == [] then cache
    else
      var next := GetAIResponse(cache, utterances[0], Some(conversationId), options, complete).cache;
      RunTurns(next, conversationId, utterances[1..], options, complete)
  }

  /**
   * Over any number of turns the cache stays valid and bounded, the system message of the
   * conversation never changes, and no other conversation is touched.
   */
  lemma {:induction false} RunTurnsInvariant(cache: Cache, conversationId: string, utterances: seq<string>,
                                             options: Options, complete: Request -> Completion)
    requires Valid(cache) && Bounded(cache, MaxHistoryLength(options))
    requires MaxHistoryLength(options) >= 2
    ensures var r := RunTurns(cache, conversationId, utterances, options, complete);
      Valid(r) && Bounded(r, MaxHistoryLength(options))
    ensures var r := RunTurns(cache, conversationId, utterances, options, complete);
      conversationId in cache && |utterances| > 0 ==> r[conversationId][0] == cache[conversationId][0]
    ensures var r := RunTurns(cache, conversationId, utterances, options, complete);
      conversationId !in cache && |utterances| > 0 ==> r[conversationId][0] == Message(System, SystemPrompt(options))
    ensures var r := RunTurns(cache, conversationId, utterances, options, complete);
      forall k :: k != conversationId ==> (k in r <==> k in cache) && (k in cache ==> r[k] == cache[k])
    decreases |utterances|
  {
    if utterances != [] {
      var next := GetAIResponse(cache, utterances[0], Some(conversationId), options, complete).cache;
      RunTurnsInvariant(next, conversationId, utterances[1..], options, complete);
    }
  }

  /**
   * When every completion succeeds, a conversation that starts at length `n` is, after
   * `t` turns, `Min(n + 2t, maxHistoryLength + 1)` long: it grows by a user/assistant pair
   * per turn until trimming holds it at `maxHistoryLength + 1`.
   */
  lemma {:induction false} RunTurnsLength(cache: Cache, conversationId: string, utterances: seq<string>,
                                          options: Options, complete: Request -> Completion)
    requires MaxHistoryLength(options) >= 2
    requires forall q :: complete(q).Completed?
    ensures |utterances| > 0 ==>
      |RunTurns(cache, conversationId, utterances, options, complete)[conversationId]|
      == Min(|Prior(cache, conversationId, options)| + 2 * |utterances|, MaxHistoryLength(options) + 1)
    decreases |utterances|
  {
    if utterances != [] {
      var next := GetAIResponse(cache, utterances[0], Some(conversationId), options, complete).cache;
      StoredLength(cache, utterances[0], Some(conversationId), options, complete);
      assert Prior(next, conversationId, options) == next[conversationId];
      RunTurnsLength(next, conversationId, utterances[1..], options, complete);
    }
  }
}

=== FILE: history_store.dfy ===
/**
 * The conversation history store of `database.js`: writes and queries over the
 * `conversation_history` table, which is the sequence of its rows in insertion order.
 * Every operation takes a `fails` flag standing for an error reported by the database
 * or an exception on the way to it; writes log such a failure and return normally.
 */
module HistoryStore {
  import opened Wrappers
  import opened Seqs

  /** `id` is the BIGSERIAL key; `createdAt` the time the database stamped on the row. */
  datatype HistoryRow = HistoryRow(id: int, conversationId: string, role: string, content: string, createdAt: int)

  /** What `loadConversationHistory` hands back for a row: only `role` and `content`. */
  datatype HistoryMessage = HistoryMessage(role: string, content: string)

  type HistoryTable = seq<HistoryRow>

  const DefaultLoadLimit: nat := 20

  function RowId(row: HistoryRow): int
  {
    row.id
  }

  function CreatedAt(row: HistoryRow): int
  {
    row.createdAt
  }

  /**
   * What the database guarantees of the table: BIGSERIAL ids start at 1 and grow, and rows
   * are stamped with strictly increasing creation times.
   */
  ghost predicate WellFormed(t: HistoryTable)
  {
    && (forall i :: 0 <= i < |t| ==> t[i].id >= 1)
    && Increasing(t, RowId)
    && Increasing(t, CreatedAt)
  }

  /** A row stamp that comes after every row of `t`. */
  ghost predicate FreshStamp(t: HistoryTable, rowId: int, now: int)
  {
    rowId >= 1 && forall i :: 0 <= i < |t| ==> t[i].id < rowId && t[i].createdAt < now
  }

  function InConversation(conversationId: string): HistoryRow -> bool
  {
    (row: HistoryRow) => row.conversationId == conversationId
  }

  function NotInConversation(conversationId: string): HistoryRow -> bool
  {
    (row: HistoryRow) => row.conversationId != conversationId
  }

  /** The rows of one conversation, in insertion order. */
  function RowsOf(t: HistoryTable, conversationId: string): seq<HistoryRow>
  {
    Filter(t, InConversation(conversationId))
  }

  function AsMessage(row: HistoryRow): HistoryMessage
  {
    HistoryMessage(row.role, row.content)
  }

  /** `rows.map(msg => ({ role: msg.role, content: msg.content }))`. */
  function Messages(rows: seq<HistoryRow>): (r: seq<HistoryMessage>)
    ensures |r| == |rows|
    ensures forall i :: 0 <= i < |r| ==> r[i] == AsMessage(rows[i])
  {
    seq(|rows|, i requires 0 <= i < |rows| => AsMessage(rows[i]))
  }

  /** A conversation's full log as messages, in insertion order. */
  function Log(t: HistoryTable, conversationId: string): seq<HistoryMessage>
  {
    Messages(RowsOf(t, conversationId))
  }

  /** `saveMessage(conversationId, role, content)`: one row is appended unless the insert fails; nothing is thrown. */
  function SaveMessage(t: HistoryTable, conversationId: string, role: string, content: string,
                       rowId: int, now: int, fails: bool): (r: HistoryTable)
    ensures fails ==> r == t
    ensures !fails ==> |r| == |t| + 1 && r[..|t|] == t && r[|t|] == HistoryRow(rowId, conversationId, role, content, now)
  {
    if fails then t else t + [HistoryRow(rowId, conversationId, role, content, now)]
  }

  /** An omitted limit defaults to 20. */
  function LoadLimit(limit: Option<nat>): nat
  {
    if limit.Some? then limit.value else DefaultLoadLimit
  }

  /**
   * The rows `loadConversationHistory` reads: the newest `limit` rows of the conversation
   * (order by `created_at` descending, then limit), reversed to oldest first.
   */
  function LoadedRows(t: HistoryTable, conversationId: string, limit: Option<nat>): (r: seq<HistoryRow>)
    ensures var rows := RowsOf(t, conversationId); r == rows[|rows| - Min(LoadLimit(limit), |rows|)..]
  {
    var rows := RowsOf(t, conversationId);
    ReverseTakeReverse(rows, LoadLimit(limit));
    Reverse(Take(Reverse(rows), LoadLimit(limit)))
  }

  /**
   * `loadConversationHistory(conversationId, limit)`: the loaded rows as messages.
   * `None` is an omitted (`undefined`) limit.
   */
  function LoadConversationHistory(t: HistoryTable, conversationId: string, limit: Option<nat>, fails: bool)
    : (r: seq<HistoryMessage>)
    ensures fails ==> r == []
    ensures !fails ==> |r| == Min(LoadLimit(limit), |RowsOf(t, conversationId)|)
    // an oldest-first suffix of the conversation's log
    ensures !fails ==> var log := Log(t, conversationId); r == log[|log| - |r|..]
  {
    if fails then []
    else
      var rows := RowsOf(t, conversationId);
      var r := Messages(LoadedRows(t, conversationId, limit));
      assert r == Messages(rows)[|rows| - |r|..];
      r
  }

  /** `clearConversationHistory(conversationId)`: all and only that conversation's rows are removed. */
  function ClearConversationHistory(t: HistoryTable, conversationId: string, fails: bool): (r: HistoryTable)
    ensures fails ==> r == t
    ensures !fails ==> forall i :: 0 <= i < |r| ==> r[i] in t && r[i].conversationId != conversationId
    ensures !fails ==> forall i :: 0 <= i < |t| && t[i].conversationId != conversationId ==> t[i] in r
  {
    if fails then t else Filter(t, NotInConversation(conversationId))
  }

  /**
   * `clearAllConversationHistory()`: deletes the rows with `id != 0`, which in a well-formed
   * table is every row.
   */
  function ClearAllConversationHistory(t: HistoryTable, fails: bool): (r: HistoryTable)
    ensures fails ==> r == t
    ensures !fails ==> forall i :: 0 <= i < |r| ==> r[i] in t && r[i].id == 0
    ensures !fails ==> forall i :: 0 <= i < |t| && t[i].id == 0 ==> t[i] in r
    ensures !fails && WellFormed(t) ==> r == []
  {
    if fails then t
    else
      var survivors := (row: HistoryRow) => row.id == 0;
      var r := Filter(t, survivors);
      assert WellFormed(t) ==> r == [] by {
        if WellFormed(t) {
          FilterNone(t, survivors);
        }
      }
      r
  }

  /** `cleanupOldHistory(days)`, with the cut-off time given directly: rows older than it are removed. */
  function CleanupOldHistory(t: HistoryTable, cutoff: int, fails: bool): (r: HistoryTable)
    ensures fails ==> r == t
    ensures !fails ==> forall i :: 0 <= i < |r| ==> r[i] in t && r[i].createdAt >= cutoff
    ensures !fails ==> forall i :: 0 <= i < |t| && t[i].createdAt >= cutoff ==> t[i] in r
  {
    if fails then t else Filter(t, (row: HistoryRow) => row.createdAt >= cutoff)
  }

  datatype ConversationStats = ConversationStats(messageCount: nat)

  /** `getConversationStats(conversationId)`: that conversation's row count, or 0 on error. */
  function GetConversationStats(t: HistoryTable, conversationId: string, fails: bool): (r: ConversationStats)
    ensures fails ==> r.messageCount == 0
    ensures !fails ==> r.messageCount == |Log(t, conversationId)|
  {
    if fails then ConversationStats(0) else ConversationStats(|RowsOf(t, conversationId)|)
  }

  /** A saved message is the last one the next load returns, and the count grows by one. */
  lemma SaveThenLoad(t: HistoryTable, conversationId: string, role: string, content: string,
                     rowId: int, now: int, limit: Option<nat>)
    requires limit.None? || limit.value >= 1
    ensures var loaded := LoadConversationHistory(SaveMessage(t, conversationId, role, content, rowId, now, false),
                                                  conversationId, limit, false);
      |loaded| >= 1 && loaded[|loaded| - 1] == HistoryMessage(role, content)
    ensures GetConversationStats(SaveMessage(t, conversationId, role, content, rowId, now, false), conversationId, false).messageCount
         == GetConversationStats(t, conversationId, false).messageCount + 1
  {
    var row := HistoryRow(rowId, conversationId, role, content, now);
    var saved := SaveMessage(t, conversationId, role, content, rowId, now, false);
    assert saved == t + [row];
    FilterConcat(t, [row], InConversation(conversationId));
    assert Filter([row], InConversation(conversationId)) == [row];
    var rows := RowsOf(saved, conversationId);
    assert rows == RowsOf(t, conversationId) + [row];
    var log := Log(saved, conversationId);
    assert log[|log| - 1] == AsMessage(row);
    var loaded := LoadConversationHistory(saved, conversationId, limit, false);
    assert |loaded| >= 1;
    assert loaded == log[|log| - |loaded|..];
    assert loaded[|loaded| - 1] == log[|log| - 1];
  }

  /** Saving with a fresh stamp keeps the table well-formed, and so does every delete. */
  lemma OperationsPreserveWellFormed(t: HistoryTable, conversationId: string, role: string, content: string,
                                     rowId: int, now: int, cutoff: int, fails: bool)
    requires WellFormed(t)
    ensures FreshStamp(t, rowId, now) ==> WellFormed(SaveMessage(t, conversationId, role, content, rowId, now, fails))
    ensures WellFormed(ClearConversationHistory(t, conversationId, fails))
    ensures WellFormed(CleanupOldHistory(t, cutoff, fails))
  {
    if !fails {
      FilterIncreasing(t, NotInConversation(conversationId), RowId);
      FilterIncreasing(t, NotInConversation(conversationId), CreatedAt);
      var recent := (row: HistoryRow) => row.createdAt >= cutoff;
      FilterIncreasing(t, recent, RowId);
      FilterIncreasing(t, recent, CreatedAt);
    }
  }

  /** Clearing one conversation leaves it empty and every other conversation's log unchanged. */
  lemma ClearConversationIsolated(t: HistoryTable, conversationId: string, other: string)
    requires other != conversationId
    ensures Log(ClearConversationHistory(t, conversationId, false), conversationId) == []
    ensures Log(ClearConversationHistory(t, conversationId, false), other) == Log(t, other)
  {
    var cleared := ClearConversationHistory(t, conversationId, false);
    FilterNone(cleared, InConversation(conversationId));
    FilterImplied(t, NotInConversation(conversationId), InConversation(other));
  }

  /** In a well-formed table the expired rows form a prefix, so cleanup keeps a suffix of the table. */
  lemma {:induction false} CleanupKeepsSuffix(t: HistoryTable, cutoff: int)
    requires Increasing(t, CreatedAt)
    ensures var r := CleanupOldHistory(t, cutoff, false); r == t[|t| - |r|..]
  {
    if t != [] {
      var keep := (row: HistoryRow) => row.createdAt >= cutoff;
      assert Increasing(t[1..], CreatedAt);
      CleanupKeepsSuffix(t[1..], cutoff);
      if t[0].createdAt >= cutoff {
        FilterAll(t, keep);
      }
    }
  }

  /**
   * In a well-formed table, the load is what `order('created_at', desc)` then `limit` and
   * a reverse return: the loaded rows, whose messages the load returns, are oldest first by
   * `created_at`, and every row of the conversation left out is older than every row loaded.
   */
  lemma LoadIsLatest(t: HistoryTable, conversationId: string, limit: Option<nat>)
    requires WellFormed(t)
    ensures Messages(LoadedRows(t, conversationId, limit)) == LoadConversationHistory(t, conversationId, limit, false)
    ensures var loaded := LoadedRows(t, conversationId, limit);
      forall i, j :: 0 <= i < j < |loaded| ==> loaded[i].createdAt < loaded[j].createdAt
    ensures var loaded := LoadedRows(t, conversationId, limit); var rows := RowsOf(t, conversationId);
      forall j :: 0 <= j < |rows| && rows[j] !in loaded ==>
        forall i :: 0 <= i < |loaded| ==> rows[j].createdAt < loaded[i].createdAt
  {
    var rows := RowsOf(t, conversationId);
    FilterIncreasing(t, InConversation(conversationId), CreatedAt);
    SuffixIsLargest(rows, CreatedAt, |rows| - Min(LoadLimit(limit), |rows|));
  }

  /** A load whose limit covers the whole conversation returns its full log. */
  lemma LoadWithLargeLimitIsLog(t: HistoryTable, conversationId: string, limit: nat)
    requires limit >= GetConversationStats(t, conversationId, false).messageCount
    ensures LoadConversationHistory(t, conversationId, Some(limit), false) == Log(t, conversationId)
  {
  }
}

=== FILE: memory_store.dfy ===
/**
 * The memory store of `memory.js`: queries over the `memories` table, and the pure
 * formatter that renders a list of memories as a section of the system prompt.
 *
 * The table is the sequence of its rows in insertion order; `created_at` is the time the
 * database stamped on the row. Every query takes a `fails` flag standing for an error
 * reported by the database or an exception on the way to it.
 */
module MemoryStore {
  import opened Seqs
  import opened Text

  datatype MemoryRow = MemoryRow(conversationId: string, memoryText: string, createdAt: int)

  type MemoryTable = seq<MemoryRow>

  function CreatedAt(row: MemoryRow): int
  {
    row.createdAt
  }

  /** Rows were stamped with strictly increasing creation times. */
  ghost predicate Chronological(t: MemoryTable)
  {
    Increasing(t, CreatedAt)
  }

  function InConversation(conversationId: string): MemoryRow -> bool
  {
    (row: MemoryRow) => row.conversationId == conversationId
  }

  function NotInConversation(conversationId: string): MemoryRow -> bool
  {
    (row: MemoryRow) => row.conversationId != conversationId
  }

  /** The rows of one conversation, in insertion order: `.eq('conversation_id', id)`. */
  function RowsOf(t: MemoryTable, conversationId: string): (r: seq<MemoryRow>)
    ensures forall i :: 0 <= i < |r| ==> r[i] in t && r[i].conversationId == conversationId
    ensures forall i :: 0 <= i < |t| && t[i].conversationId == conversationId ==> t[i] in r
  {
    Filter(t, InConversation(conversationId))
  }

  function Texts(rows: seq<MemoryRow>): (r: seq<string>)
    ensures |r| == |rows| && forall i :: 0 <= i < |rows| ==> r[i] == rows[i].memoryText
  {
    seq(|rows|, i requires 0 <= i < |rows| => rows[i].memoryText)
  }

  /** `addMemory(conversationId, memoryText)`: one row is inserted unless the insert fails; nothing is thrown. */
  function AddMemory(t: MemoryTable, conversationId: string, memoryText: string, now: int, fails: bool): (r: MemoryTable)
    ensures fails ==> r == t
    ensures !fails ==> |r| == |t| + 1 && r[..|t|] == t && r[|t|] == MemoryRow(conversationId, memoryText, now)
  {
    if fails then t else t + [MemoryRow(conversationId, memoryText, now)]
  }

  /**
   * The rows `getMemories` selects: that conversation's rows, newest first, at most `limit`
   * of them when `limit` is truthy (a `null` or `0` limit means no limit).
   */
  function NewestRows(t: MemoryTable, conversationId: string, limit: nat): (r: seq<MemoryRow>)
    ensures forall i :: 0 <= i < |r| ==> r[i] in t && r[i].conversationId == conversationId
    ensures |r| == if limit > 0 then Min(limit, |RowsOf(t, conversationId)|) else |RowsOf(t, conversationId)|
    // the i-th row returned is the i-th most recently inserted row of the conversation
    ensures var rows := RowsOf(t, conversationId); forall i :: 0 <= i < |r| ==> r[i] == rows[|rows| - 1 - i]
  {
    var rows := RowsOf(t, conversationId);
    Take(Reverse(rows), if limit > 0 then limit else |rows|)
  }

  /**
   * In a chronological table, `NewestRows` is what `order('created_at', desc)` followed by
   * `limit` means: strictly newest first, and every row of the conversation it leaves out
   * is older than every row it returns.
   */
  lemma NewestRowsAreNewest(t: MemoryTable, conversationId: string, limit: nat)
    requires Chronological(t)
    ensures var r := NewestRows(t, conversationId, limit);
      forall i, j :: 0 <= i < j < |r| ==> r[i].createdAt > r[j].createdAt
    ensures var r := NewestRows(t, conversationId, limit); var rows := RowsOf(t, conversationId);
      forall j :: 0 <= j < |rows| && rows[j] !in r ==> forall i :: 0 <= i < |r| ==> rows[j].createdAt < r[i].createdAt
  {
    var rows := RowsOf(t, conversationId);
    FilterIncreasing(t, InConversation(conversationId), CreatedAt);
    NewestFirstIsTopK(rows, CreatedAt, if limit > 0 then limit else |rows|);
  }

  /** `getMemories(conversationId, limit)`: the texts of `NewestRows`, or `[]` on error. */
  function GetMemories(t: MemoryTable, conversationId: string, limit: nat, fails: bool): (r: seq<string>)
    ensures fails ==> r == []
    ensures !fails ==> |r| == if limit > 0 then Min(limit, |RowsOf(t, conversationId)|) else |RowsOf(t, conversationId)|
    ensures !fails ==> var rows := RowsOf(t, conversationId);
      forall i :: 0 <= i < |r| ==> r[i] == rows[|rows| - 1 - i].memoryText
  {
    if fails then [] else Texts(NewestRows(t, conversationId, limit))
  }

  /** The rows `deleteMemory(conversationId, memoryText)` leaves in place. */
  function Survives(conversationId: string, memoryText: string): MemoryRow -> bool
  {
    (row: MemoryRow) => !(row.conversationId == conversationId && row.memoryText == memoryText)
  }

  function TextIsNot(memoryText: string): MemoryRow -> bool
  {
    (row: MemoryRow) => row.memoryText != memoryText
  }

  /** `deleteMemory(conversationId, memoryText)`: the rows of that conversation with exactly that text. */
  function DeleteMemory(t: MemoryTable, conversationId: string, memoryText: string, fails: bool): (r: MemoryTable)
    ensures fails ==> r == t
    ensures !fails ==> forall i :: 0 <= i < |r| ==>
      r[i] in t && !(r[i].conversationId == conversationId && r[i].memoryText == memoryText)
    ensures !fails ==> forall i :: 0 <= i < |t| && !(t[i].conversationId == conversationId && t[i].memoryText == memoryText) ==>
      t[i] in r
  {
    if fails then t else Filter(t, Survives(conversationId, memoryText))
  }

  /** `clearMemories(conversationId)`: all and only that conversation's rows are removed. */
  function ClearMemories(t: MemoryTable, conversationId: string, fails: bool): (r: MemoryTable)
    ensures fails ==> r == t
    ensures !fails ==> forall i :: 0 <= i < |r| ==> r[i] in t && r[i].conversationId != conversationId
    ensures !fails ==> forall i :: 0 <= i < |t| && t[i].conversationId != conversationId ==> t[i] in r
  {
    if fails then t else Filter(t, NotInConversation(conversationId))
  }

  /** `.ilike('memory_text', '%' + keyword + '%')`, read as case-insensitive containment. */
  function SearchHit(conversationId: string, keyword: string): MemoryRow -> bool
  {
    (row: MemoryRow) => row.conversationId == conversationId && ContainsIgnoringCase(row.memoryText, keyword)
  }

  /** Case-insensitive containment of `keyword`, as a test on a memory text. */
  function MentionsKeyword(keyword: string): string -> bool
  {
    (text: string) => ContainsIgnoringCase(text, keyword)
  }

  /** `searchMemories(conversationId, keyword)`: that conversation's texts containing the keyword, or `[]` on error. */
  function SearchMemories(t: MemoryTable, conversationId: string, keyword: string, fails: bool): (r: seq<string>)
    ensures fails ==> r == []
    ensures !fails ==> forall i :: 0 <= i < |r| ==>
      exists row :: row in t && row.conversationId == conversationId && row.memoryText == r[i]
                    && ContainsIgnoringCase(r[i], keyword)
    ensures !fails ==> forall j ::
      (0 <= j < |t| && t[j].conversationId == conversationId && ContainsIgnoringCase(t[j].memoryText, keyword))
      ==> t[j].memoryText in r
  {
    if fails then []
    else
      var hits := Filter(t, SearchHit(conversationId, keyword));
      var r := Texts(hits);
      assert forall i :: 0 <= i < |r| ==> hits[i] in t && SearchHit(conversationId, keyword)(hits[i]);
      assert forall j :: 0 <= j < |t| && SearchHit(conversationId, keyword)(t[j]) ==> t[j] in hits;
      assert forall j :: 0 <= j < |t| && SearchHit(conversationId, keyword)(t[j]) ==> t[j].memoryText in r by {
        forall j | 0 <= j < |t| && SearchHit(conversationId, keyword)(t[j])
          ensures t[j].memoryText in r
        {
          var k :| 0 <= k < |hits| && hits[k] == t[j];
          assert r[k] == t[j].memoryText;
        }
      }
      r
  }

  datatype MemoryStats = MemoryStats(count: nat)

  /** `getMemoryStats(conversationId)`: that conversation's row count, or 0 on error. */
  function GetMemoryStats(t: MemoryTable, conversationId: string, fails: bool): (r: MemoryStats)
    ensures fails ==> r.count == 0
    ensures !fails ==> r.count == |RowsOf(t, conversationId)|
  {
    if fails then MemoryStats(0) else MemoryStats(|RowsOf(t, conversationId)|)
  }

  /** A memory just added is the first one `getMemories` returns, and the count grows by one. */
  lemma AddThenGetNewestFirst(t: MemoryTable, conversationId: string, memoryText: string, now: int, limit: nat)
    requires forall i :: 0 <= i < |t| ==> t[i].createdAt < now
    ensures var t' := AddMemory(t, conversationId, memoryText, now, false);
      var got := GetMemories(t', conversationId, limit, false);
      |got| >= 1 && got[0] == memoryText
    ensures GetMemoryStats(AddMemory(t, conversationId, memoryText, now, false), conversationId, false).count
         == GetMemoryStats(t, conversationId, false).count + 1
    ensures Chronological(t) ==> Chronological(AddMemory(t, conversationId, memoryText, now, false))
  {
    var row := MemoryRow(conversationId, memoryText, now);
    var added := AddMemory(t, conversationId, memoryText, now, false);
    assert added == t + [row];
    FilterConcat(t, [row], InConversation(conversationId));
    assert Filter([row], InConversation(conversationId)) == [row];
    var rows := RowsOf(added, conversationId);
    assert rows == RowsOf(t, conversationId) + [row];
    assert Reverse(rows)[0] == row;
    var newest := NewestRows(added, conversationId, limit);
    assert |newest| >= 1 && newest[0] == row;
    assert GetMemories(added, conversationId, limit, false)[0] == memoryText;
  }

  /** Adding a memory to one conversation leaves what every other conversation sees unchanged. */
  lemma AddMemoryIsolated(t: MemoryTable, conversationId: string, memoryText: string, now: int, other: string)
    requires other != conversationId
    ensures RowsOf(AddMemory(t, conversationId, memoryText, now, false), other) == RowsOf(t, other)
  {
    FilterConcat(t, [MemoryRow(conversationId, memoryText, now)], InConversation(other));
  }

  /** A deleted text is gone from its conversation, while every other conversation's rows are unchanged. */
  lemma DeleteMemoryEffect(t: MemoryTable, conversationId: string, memoryText: string, limit: nat, other: string)
    requires other != conversationId
    ensures memoryText !in GetMemories(DeleteMemory(t, conversationId, memoryText, false), conversationId, limit, false)
    ensures RowsOf(DeleteMemory(t, conversationId, memoryText, false), other) == RowsOf(t, other)
  {
    var keep := (row: MemoryRow) => !(row.conversationId == conversationId && row.memoryText == memoryText);
    FilterImplied(t, keep, InConversation(other));
    var got := GetMemories(DeleteMemory(t, conversationId, memoryText, false), conversationId, limit, false);
    var rows := NewestRows(DeleteMemory(t, conversationId, memoryText, false), conversationId, limit);
    forall i | 0 <= i < |got|
      ensures got[i] != memoryText
    {
      assert rows[i] in Filter(t, keep);
    }
  }

  /**
   * A delete removes exactly the rows of the conversation with that text: the rows that
   * remain keep their order and multiplicity.
   */
  lemma DeleteMemoryKeepsOrder(t: MemoryTable, conversationId: string, memoryText: string)
    ensures RowsOf(DeleteMemory(t, conversationId, memoryText, false), conversationId)
         == Filter(RowsOf(t, conversationId), TextIsNot(memoryText))
  {
    FilterCommutes(t, Survives(conversationId, memoryText), InConversation(conversationId));
    FilterCongruent(RowsOf(t, conversationId), Survives(conversationId, memoryText), TextIsNot(memoryText));
  }

  lemma TextsConcat(a: seq<MemoryRow>, b: seq<MemoryRow>)
    ensures Texts(a + b) == Texts(a) + Texts(b)
  {
  }

  /** The texts of rows filtered by a test on their text are the filtered texts. */
  lemma {:induction false} TextsFilter(rows: seq<MemoryRow>, p: MemoryRow -> bool, q: string -> bool)
    requires forall i :: 0 <= i < |rows| ==> p(rows[i]) == q(rows[i].memoryText)
    ensures Texts(Filter(rows, p)) == Filter(Texts(rows), q)
  {
    if rows != [] {
      var texts := Texts(rows);
      var head := if p(rows[0]) then [rows[0]] else [];
      var rest := Filter(rows[1..], p);
      var textHead := if q(texts[0]) then [texts[0]] else [];
      TextsFilter(rows[1..], p, q);
      assert Filter(rows, p) == head + rest;
      TextsConcat(head, rest);
      assert Texts(head) == textHead;
      assert texts[1..] == Texts(rows[1..]);
      assert Filter(texts, q) == textHead + Filter(texts[1..], q);
    }
  }

  function IsNot(memoryText: string): string -> bool
  {
    (text: string) => text != memoryText
  }

  /**
   * After a delete, an unlimited `getMemories` is the earlier list with every copy of that
   * text taken out and the rest in the same order.
   */
  lemma DeleteThenGet(t: MemoryTable, conversationId: string, memoryText: string)
    ensures GetMemories(DeleteMemory(t, conversationId, memoryText, false), conversationId, 0, false)
         == Filter(GetMemories(t, conversationId, 0, false), IsNot(memoryText))
  {
    var rows := RowsOf(t, conversationId);
    var kept := Filter(rows, TextIsNot(memoryText));
    DeleteMemoryKeepsOrder(t, conversationId, memoryText);
    assert NewestRows(DeleteMemory(t, conversationId, memoryText, false), conversationId, 0) == Reverse(kept);
    assert NewestRows(t, conversationId, 0) == Reverse(rows);
    FilterReverse(rows, TextIsNot(memoryText));
    TextsFilter(Reverse(rows), TextIsNot(memoryText), IsNot(memoryText));
  }

  /** Deletes only drop rows, so a chronological table stays chronological. */
  lemma DeletesPreserveChronological(t: MemoryTable, conversationId: string, memoryText: string, fails: bool)
    requires Chronological(t)
    ensures Chronological(DeleteMemory(t, conversationId, memoryText, fails))
    ensures Chronological(ClearMemories(t, conversationId, fails))
  {
    FilterIncreasing(t, Survives(conversationId, memoryText), CreatedAt);
    FilterIncreasing(t, NotInConversation(conversationId), CreatedAt);
  }

  /**
   * Search returns one text per matching row: exactly the conversation's memories, oldest
   * first (the reverse of an unlimited `getMemories`), that contain the keyword.
   */
  lemma SearchIsFilteredMemories(t: MemoryTable, conversationId: string, keyword: string)
    ensures SearchMemories(t, conversationId, keyword, false)
         == Filter(Texts(RowsOf(t, conversationId)), MentionsKeyword(keyword))
    ensures SearchMemories(t, conversationId, keyword, false)
         == Filter(Reverse(GetMemories(t, conversationId, 0, false)), MentionsKeyword(keyword))
  {
    var rows := RowsOf(t, conversationId);
    FilterImplied(t, InConversation(conversationId), SearchHit(conversationId, keyword));
    TextsFilter(rows, SearchHit(conversationId, keyword), MentionsKeyword(keyword));
    assert Reverse(GetMemories(t, conversationId, 0, false)) == Texts(rows);
  }

  /** After clearing, the conversation has no memories and a zero count; other conversations are unchanged. */
  lemma ClearMemoriesEffect(t: MemoryTable, conversationId: string, limit: nat, other: string)
    requires other != conversationId
    ensures GetMemories(ClearMemories(t, conversationId, false), conversationId, limit, false) == []
    ensures GetMemoryStats(ClearMemories(t, conversationId, false), conversationId, false).count == 0
    ensures RowsOf(ClearMemories(t, conversationId, false), other) == RowsOf(t, other)
  {
    var cleared := ClearMemories(t, conversationId, false);
    FilterImplied(t, NotInConversation(conversationId), InConversation(other));
    FilterNone(cleared, InConversation(conversationId));
  }

  /** The count agrees with the number of memories an unlimited `getMemories` returns. */
  lemma StatsCountsMemories(t: MemoryTable, conversationId: string)
    ensures GetMemoryStats(t, conversationId, false).count == |GetMemories(t, conversationId, 0, false)|
  {
  }

  /** An empty keyword matches every memory of the conversation, in insertion order. */
  lemma SearchEmptyKeywordListsAll(t: MemoryTable, conversationId: string)
    ensures SearchMemories(t, conversationId, "", false) == Texts(RowsOf(t, conversationId))
  {
    FilterImplied(t, InConversation(conversationId), SearchHit(conversationId, ""));
    FilterAll(RowsOf(t, conversationId), SearchHit(conversationId, ""));
  }
}

module MemoryPrompt {
  import opened Wrappers
  import opened Text

  /** The fixed header in front of the numbered list. */
  const Header: string := "\n\n【记忆】以下是你记住的关于这个群聊的重要信息：\n"

  /** One list line: `${i + 1}. ${m}` for the memory at position `i`. */
  function NumberedLine(n: nat, memory: string): string
  {
    Decimal(n) + ". " + memory
  }

  /** The lines for `memories`, numbered from `first`. */
  function NumberedLines(memories: seq<string>, first: nat): (r: seq<string>)
    ensures |r| == |memories|
    ensures forall i :: 0 <= i < |r| ==> r[i] == NumberedLine(first + i, memories[i])
  {
    seq(|memories|, i requires 0 <= i < |memories| => NumberedLine(first + i, memories[i]))
  }

  /** `formatMemoriesForPrompt(memories)`; `None` is a `null` or `undefined` argument. */
  function FormatMemoriesForPrompt(memories: Option<seq<string>>): (r: string)
    ensures r == "" <==> memories.None? || |memories.value| == 0
    ensures r != "" ==> |r| > |Header| && r[..|Header|] == Header && r[|r| - 1] == '\n'
  {
    if memories.None? || |memories.value| == 0 then ""
    else Header + Join(NumberedLines(memories.value, 1), "\n") + "\n"
  }

  /** Every memory text occurs in the formatted block. */
  lemma FormatContainsEveryMemory(memories: seq<string>, k: int)
    requires 0 <= k < |memories|
    ensures exists i :: OccursAt(FormatMemoriesForPrompt(Some(memories)), memories[k], i)
  {
    var lines := NumberedLines(memories, 1);
    var body := Join(lines, "\n");
    var s := FormatMemoriesForPrompt(Some(memories));
    JoinContainsParts(lines, "\n", k);
    var j :| OccursAt(body, lines[k], j);
    var prefix := Decimal(1 + k) + ". ";
    assert lines[k] == prefix + memories[k];
    assert OccursAt(lines[k], memories[k], |prefix|) by {
      assert lines[k][|prefix|..|prefix| + |memories[k]|] == memories[k];
    }
    assert OccursAt(s, body, |Header|) by {
      assert s == Header + body + "\n";
      assert s[|Header|..|Header| + |body|] == body;
    }
    OccursTransitive(body, lines[k], memories[k], j, |prefix|);
    OccursTransitive(s, body, memories[k], |Header|, j + |prefix|);
  }

  /** Reads back the lines of a block, expecting numbers from `next` on. */
  function ParseLines(lines: seq<string>, next: nat): Option<seq<string>>
    decreases |lines|
  {
    if lines == [] then Some([])
    else
      var prefix := Decimal(next) + ". ";
      if |prefix| <= |lines[0]| && lines[0][..|prefix|] == prefix then
        match ParseLines(lines[1..], next + 1)
        case None => None
        case Some(rest) => Some([lines[0][|prefix|..]] + rest)
      else None
  }

  /**
   * Reads back a formatted block: the empty string is no memories; otherwise the header,
   * numbered lines separated by newlines, and a final newline.
   */
  function ParseMemoryBlock(s: string): Option<seq<string>>
  {
    if s == "" then Some([])
    else if |s| > |Header| && s[..|Header|] == Header && s[|s| - 1] == '\n' then
      ParseLines(Split(s[|Header|..|s| - 1], '\n'), 1)
    else None
  }

  lemma {:induction false} ParseNumberedLines(memories: seq<string>, first: nat)
    ensures ParseLines(NumberedLines(memories, first), first) == Some(memories)
    decreases |memories|
  {
    if memories != [] {
      var lines := NumberedLines(memories, first);
      assert lines[1..] == NumberedLines(memories[1..], first + 1);
      ParseNumberedLines(memories[1..], first + 1);
      var prefix := Decimal(first) + ". ";
      assert lines[0] == prefix + memories[0];
      assert lines[0][..|prefix|] == prefix;
      assert lines[0][|prefix|..] == memories[0];
      assert [memories[0]] + memories[1..] == memories;
    }
  }

  /**
   * The formatted block determines the memories it was made from, as long as no memory
   * contains a line break.
   */
  lemma FormatRoundTrip(memories: seq<string>)
    requires forall i :: 0 <= i < |memories| ==> '\n' !in memories[i]
    ensures ParseMemoryBlock(FormatMemoriesForPrompt(Some(memories))) == Some(memories)
  {
    if memories != [] {
      var lines := NumberedLines(memories, 1);
      forall i | 0 <= i < |lines|
        ensures '\n' !in lines[i]
      {
        var d := Decimal(1 + i);
        assert lines[i] == d + ". " + memories[i];
      }
      SplitJoin(lines, '\n');
      var s := FormatMemoriesForPrompt(Some(memories));
      assert s[|Header|..|s| - 1] == Join(lines, "\n");
      ParseNumberedLines(memories, 1);
    }
  }

  /**
   * Without that condition the block is ambiguous: a memory containing a line break that
   * looks like a list line formats exactly as two memories.
   */
  lemma FormatAmbiguousWithLineBreaks()
    ensures FormatMemoriesForPrompt(Some(["a\n2. b"])) == FormatMemoriesForPrompt(Some(["a", "b"]))
  {
    assert Decimal(1) == "1";
    assert Decimal(2) == "2";
  }
}

=== FILE: message_handler.dfy ===
/**
 * The decision the `'message'` handler of `bot.js` makes for an incoming message: whether
 * to answer at all, which text to send, and whether to @-mention the sender. Regular
 * expression matching is the parameter `test`, standing for `RegExp.prototype.test`.
 */
module MessageHandler {
  import opened Wrappers

  /** A regular expression, known only by its source; `test` decides what it matches. */
  datatype Regex = Regex(source: string)

  /** An entry of `targetRooms`: a room name, a RegExp, or a value of any other kind. */
  datatype TargetRoom = RoomName(name: string) | RoomPattern(pattern: Regex) | OtherEntry

  /** An entry of `autoReplyRules`. */
  datatype Rule = Rule(keyword: Regex, reply: string)

  /** The fields of the bot configuration the handler reads; `None` is a `null` default reply. */
  datatype Config = Config(
    targetRooms: seq<TargetRoom>,
    autoReplyRules: seq<Rule>,
    replyOnlyWhenMentioned: bool,
    replyToSelf: bool,
    defaultReply: Option<string>)

  /** A group chat, by its topic. */
  datatype Room = Room(topic: string)

  /**
   * What the handler learns about a message: its room (`None` for a direct message),
   * whether the bot sent it, whether it @-mentions the bot, and its text.
   */
  datatype Incoming = Incoming(room: Option<Room>, isSelf: bool, mentionSelf: bool, text: string)

  datatype SkipReason = NotInGroup | NotTargetRoom | OwnMessage | NotMentioned | NothingToSay

  /** Either nothing is sent, or `text` is said in the room, @-mentioning the sender when `mentionSender`. */
  datatype Decision = Skip(reason: SkipReason) | Say(text: string, mentionSender: bool)

  /** Whether one `targetRooms` entry selects a room with this topic. */
  function Targets(entry: TargetRoom, topic: string, test: (Regex, string) -> bool): bool
  {
    match entry
    case RoomName(name) => topic == name
    case RoomPattern(pattern) => test(pattern, topic)
    case OtherEntry => false
  }

  /** `config.targetRooms.some(...)`. */
  function IsTargetRoom(targetRooms: seq<TargetRoom>, topic: string, test: (Regex, string) -> bool): (r: bool)
    ensures r <==> exists i :: 0 <= i < |targetRooms| && Targets(targetRooms[i], topic, test)
  {
    if targetRooms == [] then false
    else Targets(targetRooms[0], topic, test) || IsTargetRoom(targetRooms[1..], topic, test)
  }

  /** The index of the first rule whose keyword matches the text: the loop with `break`. */
  function FirstMatch(rules: seq<Rule>, text: string, test: (Regex, string) -> bool): (r: Option<nat>)
    ensures r.Some? ==> r.value < |rules| && test(rules[r.value].keyword, text)
    ensures r.Some? ==> forall j :: 0 <= j < r.value ==> !test(rules[j].keyword, text)
    ensures r.None? <==> forall j :: 0 <= j < |rules| ==> !test(rules[j].keyword, text)
  {
    if rules == [] then None
    else if test(rules[0].keyword, text) then Some(0)
    else
      match FirstMatch(rules[1..], text, test)
      case None => None
      case Some(k) => Some(k + 1)
  }

  /**
   * The reply text after the rule loop and the default: the first matching rule's reply if
   * it is truthy, else the default reply if that is truthy, else nothing.
   */
  function ReplyText(config: Config, text: string, test: (Regex, string) -> bool): (r: Option<string>)
    ensures r.Some? ==> r.value != ""
    ensures var m := FirstMatch(config.autoReplyRules, text, test);
      m.Some? && config.autoReplyRules[m.value].reply != "" ==> r == Some(config.autoReplyRules[m.value].reply)
    ensures var m := FirstMatch(config.autoReplyRules, text, test);
      (m.None? || config.autoReplyRules[m.value].reply == "") ==>
      r == (if Truthy(config.defaultReply) then config.defaultReply else None)
  {
    var fromRule := match FirstMatch(config.autoReplyRules, text, test)
      case Some(k) => Some(config.autoReplyRules[k].reply)
      case None => None;
    if Truthy(fromRule) then fromRule
    else if Truthy(config.defaultReply) then config.defaultReply
    else None
  }

  /** The handler's decision for one message. */
  function Decide(config: Config, message: Incoming, test: (Regex, string) -> bool): (d: Decision)
    ensures message.room.None? ==> d == Skip(NotInGroup)
    ensures message.room.Some? && !IsTargetRoom(config.targetRooms, message.room.value.topic, test) ==>
      d == Skip(NotTargetRoom)
    ensures d.Say? ==> message.room.Some? && IsTargetRoom(config.targetRooms, message.room.value.topic, test)
    ensures d.Say? ==> config.replyToSelf || !message.isSelf
    ensures d.Say? ==> !config.replyOnlyWhenMentioned || message.mentionSelf
    ensures d.Say? ==> Some(d.text) == ReplyText(config, message.text, test) && d.mentionSender == message.mentionSelf
    ensures (&& message.room.Some?
             && IsTargetRoom(config.targetRooms, message.room.value.topic, test)
             && (config.replyToSelf || !message.isSelf)
             && (!config.replyOnlyWhenMentioned || message.mentionSelf)
             && ReplyText(config, message.text, test).Some?) ==> d.Say?
  {
    if message.room.None? then Skip(NotInGroup)
    else if !IsTargetRoom(config.targetRooms, message.room.value.topic, test) then Skip(NotTargetRoom)
    else if !config.replyToSelf && message.isSelf then Skip(OwnMessage)
    else if config.replyOnlyWhenMentioned && !message.mentionSelf then Skip(NotMentioned)
    else match ReplyText(config, message.text, test)
      case None => Skip(NothingToSay)
      case Some(reply) => Say(reply, message.mentionSelf)
  }

  /** Rules after the first match are never consulted: appending rules does not change the choice. */
  lemma {:induction false} LaterRulesNotConsulted(rules: seq<Rule>, more: seq<Rule>, text: string,
                                                  test: (Regex, string) -> bool)
    requires FirstMatch(rules, text, test).Some?
    ensures FirstMatch(rules + more, text, test) == FirstMatch(rules, text, test)
  {
    if !test(rules[0].keyword, text) {
      assert (rules + more)[1..] == rules[1..] + more;
      LaterRulesNotConsulted(rules[1..], more, text, test);
    }
  }

  /** Rules that never match can be placed in front without changing the reply. */
  lemma {:induction false} NonMatchingRulesSkipped(skipped: seq<Rule>, rules: seq<Rule>, text: string,
                                                   test: (Regex, string) -> bool)
    requires forall j :: 0 <= j < |skipped| ==> !test(skipped[j].keyword, text)
    ensures var m := FirstMatch(skipped + rules, text, test);
      var n := FirstMatch(rules, text, test);
      (m.None? <==> n.None?) && (m.Some? ==> m.value == |skipped| + n.value)
  {
    if skipped == [] {
      assert skipped + rules == rules;
    } else {
      assert (skipped + rules)[1..] == skipped[1..] + rules;
      NonMatchingRulesSkipped(skipped[1..], rules, text, test);
    }
  }

  /** When answers require a mention, every answer @-mentions the sender. */
  lemma MentionOnlyRepliesMention(config: Config, message: Incoming, test: (Regex, string) -> bool)
    requires config.replyOnlyWhenMentioned
    ensures Decide(config, message, test).Say? ==> Decide(config, message, test).mentionSender
  {
  }

  /** With no matching rule and no usable default reply, nothing is sent. */
  lemma NoRuleNoDefaultIsSilent(config: Config, message: Incoming, test: (Regex, string) -> bool)
    requires FirstMatch(config.autoReplyRules, message.text, test).None?
    requires !Truthy(config.defaultReply)
    ensures Decide(config, message, test).Skip?
  {
  }
}

=== FILE: seqs.dfy ===
/** Generic sequence operations used to model table queries and list slicing. */
module Seqs {

  function Min(a: int, b: int): int
  {
    if a <= b then a else b
  }

  /** The elements of `s` satisfying `p`, in their original order. */
  function Filter<T>(s: seq<T>, p: T -> bool): (r: seq<T>)
    ensures |r| <= |s|
    ensures forall i :: 0 <= i < |r| ==> r[i] in s && p(r[i])
    ensures forall i :: 0 <= i < |s| && p(s[i]) ==> s[i] in r
  {
    if s == [] then []
    else (if p(s[0]) then [s[0]] else []) + Filter(s[1..], p)
  }

  /** `s` in the opposite order. */
  function Reverse<T>(s: seq<T>): (r: seq<T>)
    ensures |r| == |s|
    ensures forall i :: 0 <= i < |s| ==> r[i] == s[|s| - 1 - i]
  {
    seq(|s|, i requires 0 <= i < |s| => s[|s| - 1 - i])
  }

  /** The first `n` elements of `s`, or all of them when there are fewer. */
  function Take<T>(s: seq<T>, n: nat): (r: seq<T>)
    ensures |r| == Min(n, |s|)
    ensures forall i :: 0 <= i < |r| ==> r[i] == s[i]
  {
    if n < |s| then s[..n] else s
  }

  /** Reversing, taking `n`, and reversing back keeps the last `n` elements. */
  lemma ReverseTakeReverse<T>(s: seq<T>, n: nat)
    ensures Reverse(Take(Reverse(s), n)) == s[|s| - Min(n, |s|)..]
  {
    var r := Reverse(Take(Reverse(s), n));
    var k := Min(n, |s|);
    var tail := s[|s| - k..];
    assert |r| == |tail|;
    forall i | 0 <= i < k
      ensures r[i] == tail[i]
    {
      ReverseTakeReverseAt(s, n, i);
    }
    assert r == tail;
  }

  lemma ReverseTakeReverseAt<T>(s: seq<T>, n: nat, i: int)
    requires 0 <= i < Min(n, |s|)
    ensures Reverse(Take(Reverse(s), n))[i] == s[|s| - Min(n, |s|) + i]
  {
  }

  /** `key` strictly increases along `s`. */
  ghost predicate Increasing<T>(s: seq<T>, key: T -> int)
  {
    forall i, j :: 0 <= i < j < |s| ==> key(s[i]) < key(s[j])
  }

  lemma {:induction false} FilterConcat<T>(a: seq<T>, b: seq<T>, p: T -> bool)
    ensures Filter(a + b, p) == Filter(a, p) + Filter(b, p)
  {
    if a == [] {
      assert a + b == b;
    } else {
      assert (a + b)[1..] == a[1..] + b;
      FilterConcat(a[1..], b, p);
    }
  }

  /** Filtering twice, where the second test implies the first, is filtering once. */
  lemma {:induction false} FilterImplied<T>(s: seq<T>, p: T -> bool, q: T -> bool)
    requires forall x :: q(x) ==> p(x)
    ensures Filter(Filter(s, p), q) == Filter(s, q)
  {
    if s != [] {
      FilterImplied(s[1..], p, q);
      FilterConcat(if p(s[0]) then [s[0]] else [], Filter(s[1..], p), q);
    }
  }

  /** The order in which two filters are applied does not matter. */
  lemma {:induction false} FilterCommutes<T>(s: seq<T>, p: T -> bool, q: T -> bool)
    ensures Filter(Filter(s, p), q) == Filter(Filter(s, q), p)
  {
    if s != [] {
      FilterCommutes(s[1..], p, q);
      FilterConcat(if p(s[0]) then [s[0]] else [], Filter(s[1..], p), q);
      FilterConcat(if q(s[0]) then [s[0]] else [], Filter(s[1..], q), p);
    }
  }

  /** Filters that agree on every element of `s` select the same elements. */
  lemma {:induction false} FilterCongruent<T>(s: seq<T>, p: T -> bool, q: T -> bool)
    requires forall i :: 0 <= i < |s| ==> p(s[i]) == q(s[i])
    ensures Filter(s, p) == Filter(s, q)
  {
    if s != [] {
      FilterCongruent(s[1..], p, q);
    }
  }

  lemma ReverseConcat<T>(a: seq<T>, b: seq<T>)
    ensures Reverse(a + b) == Reverse(b) + Reverse(a)
  {
    assert |Reverse(a + b)| == |Reverse(b) + Reverse(a)|;
    forall i | 0 <= i < |a| + |b|
      ensures Reverse(a + b)[i] == (Reverse(b) + Reverse(a))[i]
    {
      if i < |b| {
        assert Reverse(a + b)[i] == b[|b| - 1 - i];
      } else {
        assert Reverse(a + b)[i] == a[|a| + |b| - 1 - i];
      }
    }
  }

  /** Filtering and reversing can be done in either order. */
  lemma {:induction false} FilterReverse<T>(s: seq<T>, p: T -> bool)
    ensures Reverse(Filter(s, p)) == Filter(Reverse(s), p)
  {
    if s != [] {
      var head := if p(s[0]) then [s[0]] else [];
      FilterReverse(s[1..], p);
      ReverseConcat(head, Filter(s[1..], p));
      assert s == [s[0]] + s[1..];
      ReverseConcat([s[0]], s[1..]);
      assert Reverse([s[0]]) == [s[0]];
      FilterConcat(Reverse(s[1..]), [s[0]], p);
      assert Reverse(head) == head;
    }
  }

  /** A filter every element passes changes nothing. */
  lemma {:induction false} FilterAll<T>(s: seq<T>, p: T -> bool)
    requires forall i :: 0 <= i < |s| ==> p(s[i])
    ensures Filter(s, p) == s
  {
    if s != [] {
      FilterAll(s[1..], p);
    }
  }

  /** A filter no element passes leaves nothing. */
  lemma {:induction false} FilterNone<T>(s: seq<T>, p: T -> bool)
    requires forall i :: 0 <= i < |s| ==> !p(s[i])
    ensures Filter(s, p) == []
  {
    if s != [] {
      FilterNone(s[1..], p);
    }
  }

  /** Filtering keeps the relative order, so it keeps a strictly increasing key increasing. */
  lemma {:induction false} FilterIncreasing<T>(s: seq<T>, p: T -> bool, key: T -> int)
    requires Increasing(s, key)
    ensures Increasing(Filter(s, p), key)
  {
    if s != [] {
      var rest := Filter(s[1..], p);
      FilterIncreasing(s[1..], p, key);
      forall k | 0 <= k < |rest|
        ensures key(s[0]) < key(rest[k])
      {
        var j :| 0 <= j < |s[1..]| && s[1..][j] == rest[k];
        assert s[j + 1] == rest[k];
      }
    }
  }

  /** In an increasing sequence a suffix is increasing, and everything before it is smaller. */
  lemma SuffixIsLargest<T>(s: seq<T>, key: T -> int, start: nat)
    requires Increasing(s, key) && start <= |s|
    ensures var suffix := s[start..];
      && (forall i, j :: 0 <= i < j < |suffix| ==> key(suffix[i]) < key(suffix[j]))
      && (forall j :: 0 <= j < |s| && s[j] !in suffix ==> forall i :: 0 <= i < |suffix| ==> key(s[j]) < key(suffix[i]))
  {
    var suffix := s[start..];
    forall j | 0 <= j < |s| && s[j] !in suffix
      ensures forall i :: 0 <= i < |suffix| ==> key(s[j]) < key(suffix[i])
    {
      forall i | 0 <= i < |suffix|
        ensures key(s[j]) < key(suffix[i])
      {
        assert suffix[i] == s[start + i];
      }
    }
  }

  /**
   * Taking the first `n` elements of the reversal of an increasing sequence selects the
   * `n` elements with the largest keys, largest first: what `order by key desc limit n` returns.
   */
  lemma NewestFirstIsTopK<T>(s: seq<T>, key: T -> int, n: nat)
    requires Increasing(s, key)
    ensures var r := Take(Reverse(s), n);
      && (forall i, j :: 0 <= i < j < |r| ==> key(r[i]) > key(r[j]))
      && (forall j :: 0 <= j < |s| && s[j] !in r ==> forall i :: 0 <= i < |r| ==> key(s[j]) < key(r[i]))
  {
    var r := Take(Reverse(s), n);
    forall j | 0 <= j < |s| && s[j] !in r
      ensures forall i :: 0 <= i < |r| ==> key(s[j]) < key(r[i])
    {
      assert Reverse(s)[|s| - 1 - j] == s[j];
    }
  }
}

=== FILE: text.dfy ===
/**
 * String operations the JavaScript source relies on: substring search, ASCII case folding,
 * decimal rendering of numbers, `Array.prototype.join` and `String.prototype.split`.
 */
module Text {

  /** `k` occurs in `s` starting at index `i`. */
  predicate OccursAt(s: string, k: string, i: int)
  {
    0 <= i && i + |k| <= |s| && s[i..i + |k|] == k
  }

  /** Substring search, by scanning `s` from the left. */
  function Contains(s: string, k: string): bool
    decreases |s|
  {
    k <= s || (|s| > 0 && Contains(s[1..], k))
  }

  /** The scanning search agrees with the definition of an occurrence, in both directions. */
  lemma {:induction false} ContainsIff(s: string, k: string)
    ensures Contains(s, k) <==> exists i :: OccursAt(s, k, i)
  {
    if k <= s {
      assert s[0..|k|] == k;
      assert OccursAt(s, k, 0);
    } else if |s| > 0 {
      ContainsIff(s[1..], k);
      if exists i :: OccursAt(s[1..], k, i) {
        var i :| OccursAt(s[1..], k, i);
        assert s[1..][i..i + |k|] == s[i + 1..i + 1 + |k|];
        assert OccursAt(s, k, i + 1);
      }
      if exists i :: OccursAt(s, k, i) {
        var i :| OccursAt(s, k, i);
        if i > 0 {
          assert s[1..][i - 1..i - 1 + |k|] == s[i..i + |k|];
          assert OccursAt(s[1..], k, i - 1);
        }
      }
    }
  }

  /** An occurrence inside a middle part is an occurrence in the whole concatenation. */
  lemma OccursInConcat(a: string, m: string, b: string, k: string, i: int)
    requires OccursAt(m, k, i)
    ensures OccursAt(a + m + b, k, |a| + i)
  {
    assert (a + m + b)[|a| + i..|a| + i + |k|] == m[i..i + |k|];
  }

  /** An occurrence of `k` inside an occurrence of `m` is an occurrence of `k` in `s`. */
  lemma OccursTransitive(s: string, m: string, k: string, i: int, j: int)
    requires OccursAt(s, m, i) && OccursAt(m, k, j)
    ensures OccursAt(s, k, i + j)
  {
    var w := s[i..i + |m|];
    assert w == m;
    forall t | 0 <= t < |k|
      ensures s[i + j + t] == k[t]
    {
      assert s[i + j + t] == w[j + t] == m[j + t];
      assert m[j..j + |k|][t] == m[j + t];
    }
    assert s[i + j..i + j + |k|] == k;
  }

  function LowerChar(c: char): char
  {
    if 'A' <= c <= 'Z' then (c as int - 'A' as int + 'a' as int) as char else c
  }

  /** ASCII lower-casing: upper-case Latin letters map to lower case, every other character is kept. */
  function Lower(s: string): (r: string)
    ensures |r| == |s|
    ensures forall i :: 0 <= i < |s| ==> r[i] == LowerChar(s[i])
    ensures forall i :: 0 <= i < |r| ==> !('A' <= r[i] <= 'Z')
  {
    seq(|s|, i requires 0 <= i < |s| => LowerChar(s[i]))
  }

  /** Case-insensitive substring containment. */
  predicate ContainsIgnoringCase(s: string, k: string)
  {
    Contains(Lower(s), Lower(k))
  }

  function Digit(d: nat): (c: char)
    requires d < 10
    ensures '0' <= c <= '9' && c as int - '0' as int == d
  {
    "0123456789"[d]
  }

  predicate IsDigits(s: string)
  {
    forall i :: 0 <= i < |s| ==> '0' <= s[i] <= '9'
  }

  /** The number a string of decimal digits denotes. */
  function DigitsValue(s: string): nat
    requires IsDigits(s)
  {
    if s == [] then 0 else DigitsValue(s[..|s| - 1]) * 10 + (s[|s| - 1] as int - '0' as int)
  }

  /** The decimal rendering of a natural number, as a JavaScript template literal prints it. */
  function Decimal(n: nat): (r: string)
    ensures |r| >= 1 && IsDigits(r)
    ensures n > 0 ==> r[0] != '0'
  {
    if n < 10 then [Digit(n)] else Decimal(n / 10) + [Digit(n % 10)]
  }

  /** Reading the rendering back gives the number. */
  lemma {:induction false} DecimalValue(n: nat)
    ensures DigitsValue(Decimal(n)) == n
  {
    if n >= 10 {
      DecimalValue(n / 10);
      var d := Decimal(n);
      assert d[..|d| - 1] == Decimal(n / 10);
    }
  }

  /** `parts.join(sep)`. */
  function Join(parts: seq<string>, sep: string): string
  {
    if |parts| == 0 then ""
    else if |parts| == 1 then parts[0]
    else parts[0] + sep + Join(parts[1..], sep)
  }

  /** Every part occurs in the joined string. */
  lemma {:induction false} JoinContainsParts(parts: seq<string>, sep: string, k: int)
    requires 0 <= k < |parts|
    ensures exists i :: OccursAt(Join(parts, sep), parts[k], i)
  {
    if |parts| == 1 {
      assert parts[0][0..|parts[0]|] == parts[0];
      assert OccursAt(Join(parts, sep), parts[k], 0);
    } else if k == 0 {
      OccursInConcat([], parts[0], sep + Join(parts[1..], sep), parts[0], 0);
      assert [] + parts[0] + (sep + Join(parts[1..], sep)) == Join(parts, sep);
    } else {
      JoinContainsParts(parts[1..], sep, k - 1);
      var i :| OccursAt(Join(parts[1..], sep), parts[k], i);
      OccursInConcat(parts[0] + sep, Join(parts[1..], sep), [], parts[k], i);
      assert parts[0] + sep + Join(parts[1..], sep) + [] == Join(parts, sep);
    }
  }

  /** `s.split(sep)` for a one-character separator: the pieces between separators. */
  function Split(s: string, sep: char): (r: seq<string>)
    ensures |r| >= 1
    ensures forall i :: 0 <= i < |r| ==> sep !in r[i]
    decreases |s|
  {
    if |s| == 0 then [""]
    else
      var rest := Split(s[1..], sep);
      if s[0] == sep then [""] + rest else [[s[0]] + rest[0]] + rest[1..]
  }

  lemma {:induction false} SplitWithoutSeparator(x: string, sep: char)
    requires sep !in x
    ensures Split(x, sep) == [x]
  {
    if |x| > 0 {
      SplitWithoutSeparator(x[1..], sep);
      assert [x[0]] + x[1..] == x;
    }
  }

  lemma {:induction false} SplitAtFirstSeparator(x: string, sep: char, y: string)
    requires sep !in x
    ensures Split(x + [sep] + y, sep) == [x] + Split(y, sep)
  {
    var s := x + [sep] + y;
    if |x| == 0 {
      assert s[1..] == y;
    } else {
      assert s[1..] == x[1..] + [sep] + y;
      SplitAtFirstSeparator(x[1..], sep, y);
      assert [x[0]] + x[1..] == x;
    }
  }

  /** Splitting undoes joining when no part contains the separator. */
  lemma {:induction false} SplitJoin(parts: seq<string>, sep: char)
    requires |parts| >= 1
    requires forall i :: 0 <= i < |parts| ==> sep !in parts[i]
    ensures Split(Join(parts, [sep]), sep) == parts
  {
    if |parts| == 1 {
      SplitWithoutSeparator(parts[0], sep);
    } else {
      SplitJoin(parts[1..], sep);
      SplitAtFirstSeparator(parts[0], sep, Join(parts[1..], [sep]));
    }
  }
}

=== FILE: wrappers.dfy ===
/** Failure-carrying result types shared by the modules of the model. */
module Wrappers {

  /**
   * A value that may be absent. Each use says what `None` stands for: an omitted argument
   * (`undefined`), an absent field, or `null` where the code treats it like `undefined`.
   */
  datatype Option<+T> = None | Some(value: T)

  /** The outcome of an operation that either returns a value or throws. */
  datatype Result<+T, +E> = Success(value: T) | Failure(error: E)

  /** JavaScript truthiness of an optional string: absent and empty are both falsy. */
  predicate Truthy(s: Option<string>)
  {
    s.Some? && s.value != ""
  }

  /** JavaScript's `x || fallback` on an optional string. */
  function OrElse(x: Option<string>, fallback: string): string
  {
    if Truthy(x) then x.value else fallback
  }
}
